=== FILE: README.md ===
# Slack–Jira issue bot: a Dafny model of its decision logic

The bot watches a Slack workspace for mentions of Jira issue keys such as
`PROJ-42` and answers each mention with a message card built from the issue's
current data. This project models the pure logic of `main.go` and proves
properties of it. It covers these pieces:

- **Pattern construction** (`PatternBuilder`): the regular-expression source
  built from the project keys fetched at startup. Every key is followed by
  `|`, the keys are wrapped in `(?:\W|^)((` … `)-\d+)(\+)?|$`, and no key is
  escaped.
- **Status colour** (`Colors`): blue for `Open`, `Reopened` and `To Do`; green
  for `Resolved`, `Closed` and `Done`; yellow for every other name. The
  comparison is exact and case-sensitive.
- **Issue lookup outcome** (`Resolver`): after the HTTP exchange, the reply is
  classified. A transport failure, a status other than 200, an undecodable
  body and an empty issue key are errors. Otherwise the issue is returned, and
  an issue with no assignee gets the placeholder assignee `Unassigned`.
- **Card rendering** (`Cards`): the post for an issue. It carries the title,
  the browse link, the markdown body, the colour, the bot name `Jira` and the
  Jira icon.
- **Message processing** (`Processor`): each submatch list of the search is
  handled in order. The key is group 1 with white space trimmed. Each key is
  looked up on its own. Every successful lookup gives exactly one post, a
  failed one gives none, and repeated mentions are not merged.
- **Event loop** (`Events`): messages whose subtype is not `bot_message` start
  a job. Other events are ignored. The first invalid-credentials event ends
  the loop. `Serve` composes the loop with message processing.

Supporting modules: `Wrappers` (`Option`, `Result`), `Jira` (the decoded
entities, with nil pointers as `None`), and `Strings` (split/join at a
separator and Go's `strings.TrimSpace`).

Abstract inputs:

- The regular-expression engine is the parameter `findAll`. It maps a text to
  its submatch lists, in match order. The pattern has three capture groups,
  so each submatch list is a `Submatch` of four strings: the whole match,
  group 1 (the `KEY-NUMBER` reference), group 2 (the project key inside it)
  and group 3 (the optional `+`). Only group 1 is used.
- The tracker request is the parameter `lookup`. It maps an issue key to a
  `Reply`: either a transport failure, or a status code with the decoded body.
- The Jira base URL is the parameter `host`.

Behaviour of the code worth knowing:

- The error of the project listing is ignored (`main.go:255`); the pattern
  is built from whatever keys are present.
- Keys are pasted into the pattern unescaped. A key holding `|` silently
  changes the alternatives (`UnescapedKeyChangesAlternatives`); a key that
  makes the pattern invalid, such as `A(` or `*`, makes `regexp.MustCompile`
  (`main.go:190`) panic at startup.
- The key group always has an empty last alternative, and the pattern ends in
  a top-level `|$` alternative, so even an empty key list gives a pattern with
  matchable alternatives (`GroupAlternativesOfPattern`, `EmptyKeysPattern`).

## Model

| member | source | states |
|---|---|---|
| `PatternBuilder.BuildPattern` | main.go:183-191 | The loop that appends each project key and a `\|` produces exactly the declarative pattern for the listed keys, in listing order. Its length is the prefix, plus each key with its `\|`, plus the suffix. |
| `PatternBuilder.KeyAlternation` | main.go:185-188 | The key alternation's length is the sum over the keys of their length plus one. |
| `PatternBuilder.PatternLength` | main.go:184-189 | The pattern is 10 characters, then every key with its `\|`, then 13 characters. |
| `PatternBuilder.EmptyKeysPattern` | main.go:183-189 | With no projects the pattern is `(?:\W\|^)(()-\d+)(\+)?\|$`. |
| `PatternBuilder.GroupAlternativesOfPattern` | main.go:184-189 | For keys without `\|`, the key group's alternatives are exactly the keys in order, followed by one empty alternative. So the keys can be read back from the pattern, and the group also accepts an empty key. |
| `PatternBuilder.KeyAlternationSnoc` | main.go:185-188 | Appending one key appends that key and one `\|` to the alternation. |
| `PatternBuilder.UnescapedKeyChangesAlternatives` | main.go:185-187 | Keys are pasted in unescaped: the key `A\|B` is read back as the two alternatives `A` and `B`. |
| `Colors.GetColor` | main.go:193-213 | Blue exactly for `Open`, `Reopened` and `To Do`. Green exactly for `Resolved`, `Closed` and `Done`. Yellow exactly for every other string. |
| `Colors.NearMissesAreYellow` | main.go:207-208 | Near misses (`done`, `open`, `Backlog`, `Done ` and the empty name) are yellow. |
| `Resolver.GetIssue` | main.go:149-168 | Succeeds if and only if the reply has status 200, a decodable body and a non-empty key. Each failure carries its reason: transport failure, bad status with its code, undecodable body, or no issue found. On success the issue is the decoded one, normalised. |
| `Resolver.Normalize` | main.go:164-166 | The result always has an assignee. A missing assignee becomes `Unassigned`, a present one is kept. Nothing but the assignee changes. |
| `Resolver.NormalizeIdempotent` | main.go:164-166 | Normalising a normalised issue changes nothing. |
| `Resolver.GetIssuePreservesFields` | main.go:158-168 | A successful lookup keeps the decoded key, summary, issue type, creator, priority and status. |
| `Strings.TrimSpaceSpec` | main.go:240 | The trimmed string is a contiguous slice of the input. Everything cut off on either side is white space. The result neither starts nor ends with white space. |
| `Strings.TrimSpaceIdempotent` | main.go:240 | Trimming a trimmed key changes nothing. |
| `Strings.SplitJoin` | main.go:184-189 | Splitting at a separator undoes joining with it, when no part contains the separator. This is what lets keys and card values be read back. |
| `Cards.RenderCard` | main.go:216-223 | The title is the issue key, and the key can be read back from the title link. The body is the card text of the issue's summary, assignee and priority, whose length is theirs plus 29. The colour is the status colour, one of the three. Markdown is enabled for text and pretext. |
| `Cards.SendMessage` | main.go:214-227 | The post goes to the given channel with no text of its own. It is sent as `Jira` with the Jira icon, and its only attachment is the issue's card. |
| `Cards.CardTextRoundTrip` | main.go:216 | When no value holds a `*`, the body `*summary*`, assignee label, priority label reads back as exactly the summary, assignee name and priority name. |
| `Cards.RenderCardRoundTrip` | main.go:216-219 | A rendered card gives back the issue key from its link and, when no value holds a `*`, the issue's body values from its text. |
| `Processor.SafeReplyRenders` | main.go:164-221 | When an accepted reply's issue has fields, priority and status, the lookup never dereferences nil, and its successful outcome can be rendered. |
| `Processor.PostsForKey` | main.go:240-242 | Looking up one key gives nothing when the lookup fails. When it succeeds it gives one post, to the message's channel, sent as `Jira`, carrying the card of the issue found. |
| `Processor.PostsForMatch` | main.go:240-242 | One submatch list gives one post if its lookup succeeds and none if it fails. That post is the post of the issue found for the list's trimmed group 1. |
| `Processor.PostOf` | main.go:240-241 | The post for a resolving match goes to the message's channel as `Jira` and carries the card of the issue found for the match's trimmed reference. |
| `Processor.MessagePosts` | main.go:238-243 | A message gives one post per successful lookup, so never more posts than references. |
| `Processor.ProcessEvents` | main.go:236-244 | The loop over the submatch lists posts exactly the message's posts, in match order. |
| `Processor.MessagePostsAppend` | main.go:239-243 | The posts for two runs of references are the posts of each run, one after the other. What one reference yields does not depend on the others. |
| `Processor.FailedLookupSkipped` | main.go:240-242 | A reference whose lookup fails contributes nothing, and the references after it are still processed. |
| `Processor.DuplicatesPostedTwice` | main.go:238-243 | The same resolving reference twice gives two identical posts: there is no deduplication. |
| `Processor.PostsForMatchMembership` | main.go:240-242 | A match yields exactly the post for its issue when its lookup succeeds, and nothing else. |
| `Processor.MessagePostsSound` | main.go:239-242 | Every post of a message is the post of one of its references whose lookup succeeded. |
| `Processor.MessagePostsComplete` | main.go:239-242 | The post of every reference whose lookup succeeds is among the message's posts. |
| `Processor.MessagePostsMembership` | main.go:239-242 | A post is among a message's posts if and only if some reference of the message resolves to an issue whose card it is. |
| `Processor.KeysAreTrimmedReferences` | main.go:238-240 | The key for each submatch list is its group 1 with exactly the surrounding white space removed. |
| `Processor.MessagePostsByKeys` | main.go:238-243 | A message's posts are exactly the posts of looking up its keys one after another, in submatch order. |
| `Events.Dispatched` | main.go:263-275 | An event stream starts at most one job per event. |
| `Events.EventLoop` | main.go:260-277 | The loop starts exactly the stream's jobs. It reports that it stopped if and only if the stream holds an invalid-credentials event. |
| `Events.DispatchedAppend` | main.go:263-275 | Before any invalid-credentials event, the jobs of a stream are the jobs of its parts, one after the other. |
| `Events.StopsAtInvalidAuth` | main.go:270-272 | No event after the first invalid-credentials event starts a job. |
| `Events.IgnoredEventsSkipped` | main.go:265-274 | Bot messages and other events start no job and leave the surrounding jobs unchanged. |
| `Events.DispatchedMembership` | main.go:265-269 | In a stream without an invalid-credentials event, a job is started if and only if a non-bot message with that text and channel occurs. |
| `Events.FirstInvalid` | main.go:270-272 | The position of the first invalid-credentials event: none occurs before it, and it is either the end of the stream or such an event. |
| `Events.DispatchedUpToFirstInvalid` | main.go:260-277 | The jobs of a stream are the jobs of its events before the first invalid-credentials event. |
| `Events.JobPosts` | main.go:263-269 | Every post of a list of jobs goes to the channel of one of the jobs. |
| `Events.JobPostsOfOneJob` | main.go:238-243 | A single job posts exactly the posts message processing gives for its text, in its channel: each card once. |
| `Events.JobPostsAppend` | main.go:263-269 | The posts of two lists of jobs are the posts of each, one after the other: no job's posts are dropped or repeated. |
| `Events.JobPostsMembership` | main.go:268 | A post is among the posts of a list of jobs if and only if it is among the posts that message processing gives for one job's text, in that job's channel. |
| `Events.Serve` | main.go:260-278 | The bot's posts for a stream are the posts of the jobs started by the events before the first invalid-credentials event. |
| `Events.ServeStopsAtInvalidAuth` | main.go:260-278 | Events after the first invalid-credentials event never lead to a post. |
| `Events.ServePostsAnswerUserMessages` | main.go:260-278 | A post is among the bot's posts if and only if it is among the posts for the text of a user message that came before the first invalid-credentials event; it then goes to that message's channel. |

## Left out

- HTTP transport: `NewClient`, the requests of `GetProjects` and `GetIssue`,
  and `consumeResponse` are left out; the exchange is the `lookup` parameter.
  A request that cannot be built (main.go:141-145) and one that fails in
  transit (main.go:149-152) both appear as `TransportFailure`.
  The nil dereference of the response in `consumeResponse` on a transport
  error (main.go:173) is not modelled; a transport failure is a plain error.
- `GetProjects`: the project listing is an input to `BuildPattern`. Its status
  check and JSON decoding are not modelled.
- JSON decoding: a reply carries the already-decoded issue, or `None` when the
  body does not decode.
- The regular-expression engine: only the pattern string is modelled. Its
  matches are the `findAll` parameter. So the model does not say which texts
  the pattern matches, for example the empty match `|$` gives at the end of a
  text.
- Slack calls (`PostMessage`, `NewRTM`, `ManageConnection`), environment
  variables and `fmt.Printf` logging. A post is returned as a value; the
  result of sending it is ignored, as the source ignores it.
- Goroutines and the `sync.WaitGroup`: jobs run sequentially in the model, one
  after the other. The WaitGroup is passed by value (main.go:236, 268), so
  `wg.Wait()` would never see the jobs finish. That is concurrency and is not
  modelled.
- `Events.JobPosts`: posts of different jobs appear in job order; the source
  runs jobs concurrently, so their posts may interleave in any order.
- Nil dereferences in the source: an accepted issue without fields
  (main.go:164), priority (main.go:216) or status (main.go:221) is excluded by
  preconditions rather than modelled as a crash.
- `Processor.MessagePosts`: its precondition `SafeTracker` asks that every
  accepted reply has fields, priority and status, for every key. The source
  only needs this for the keys a message actually looks up. The same stronger
  precondition is on every `Processor` member and on every `Events` member
  that runs messages.
- `Processor.DuplicatesPostedTwice`: the tracker is a fixed function from key
  to reply for the whole run. The source sends a new request per reference,
  whose reply could fail intermittently or show an issue edited in between;
  the model does not cover that, so two mentions of one key give identical
  posts.
- `PatternBuilder.BuildPattern`: only the pattern text is modelled. Compiling
  it with `regexp.MustCompile` (main.go:190), and the panic when a key makes
  it invalid, are not modelled.
- Go strings are byte strings; the model works on Unicode characters, so
  invalid UTF-8 is not modelled.

=== FILE: cards.dfy ===
/** The chat message posted for a resolved issue: one attachment ("card")
    with the issue key as title, a link into the tracker, a markdown body and
    the status colour, sent under a fixed bot name and icon. */
module Cards {
  import opened Wrappers
  import opened Jira
  import opened Strings
  import opened Colors

  const JiraIcon: string := "https://globus.atlassian.net/images/64jira.png"
  const BotName: string := "Jira"

  /** Path inserted between the tracker's base URL and the issue key. */
  const BrowsePath: string := "/browse/"

  /** Attachment fields in which the chat service renders markdown. */
  const MarkdownFields: seq<string> := ["text", "pretext"]

  datatype Attachment = Attachment(
    title: string,
    titleLink: string,
    text: string,
    color: string,
    markdownIn: seq<string>)

  /** One post to the chat service: channel, message text, sender display
      name, sender icon and attachments. */
  datatype Post = Post(
    channel: string,
    text: string,
    username: string,
    iconUrl: string,
    attachments: seq<Attachment>)

  /** The three values the card body shows. */
  datatype CardFields = CardFields(summary: string, assignee: string, priority: string)

  /** The source reads the summary, the assignee's name, the priority's name
      and the status's name without nil checks, so all must be present. */
  predicate Renderable(issue: Issue)
  {
    && issue.fields.Some?
    && issue.fields.value.assignee.Some?
    && issue.fields.value.priority.Some?
    && issue.fields.value.status.Some?
  }

  /** The values of an issue that end up in the card body. */
  function FieldsOf(issue: Issue): CardFields
    requires Renderable(issue)
  {
    var f := issue.fields.value;
    CardFields(f.summary, f.assignee.value.displayName, f.priority.value.name)
  }

  /** The markdown body: the summary in bold, a blank line, then the
      assignee and the priority, each after a bold label. */
  function CardText(c: CardFields): string
  {
    "*" + c.summary + "*\n\n *Assignee* " + c.assignee + " *Priority* " + c.priority + " "
  }

  /** The issue's page in the tracker. */
  function BrowseLink(host: string, key: string): string
  {
    host + BrowsePath + key
  }

  /** The issue key a browse link points at, if it is one for `host`. */
  function KeyFromLink(host: string, link: string): Option<string>
  {
    var n := |host| + |BrowsePath|;
    if |link| >= n && link[..n] == host + BrowsePath then Some(link[n..]) else None
  }

  /** Reads the three body values back from a card body; `None` when the
      text is not of the card's shape. */
  function ParseCardText(text: string): Option<CardFields>
  {
    var parts := Split(text, '*');
    if |parts| == 7 && parts[0] == "" && parts[2] == "\n\n " && parts[3] == "Assignee"
       && parts[5] == "Priority"
       && |parts[4]| >= 2 && parts[4][0] == ' ' && parts[4][|parts[4]| - 1] == ' '
       && |parts[6]| >= 2 && parts[6][0] == ' ' && parts[6][|parts[6]| - 1] == ' '
    then Some(CardFields(parts[1], parts[4][1..|parts[4]| - 1], parts[6][1..|parts[6]| - 1]))
    else None
  }

  /** The labelled assignee and priority part of a card body, joined. */
  lemma LabelsAreJoin(a: string, p: string)
    ensures Join(["Assignee", a, "Priority", p], '*') == "Assignee*" + a + "*Priority*" + p
  {
    assert Join([p], '*') == p;
    JoinCons("Priority", [p], '*');
    assert ["Priority"] + [p] == ["Priority", p];
    JoinCons(a, ["Priority", p], '*');
    assert [a] + ["Priority", p] == [a, "Priority", p];
    JoinCons("Assignee", [a, "Priority", p], '*');
    assert ["Assignee"] + [a, "Priority", p] == ["Assignee", a, "Priority", p];
  }

  /** The card body after the summary, joined. */
  lemma BodyTailIsJoin(a: string, p: string)
    ensures Join(["\n\n ", "Assignee", a, "Priority", p], '*') == "\n\n *Assignee*" + a + "*Priority*" + p
  {
    LabelsAreJoin(a, p);
    JoinCons("\n\n ", ["Assignee", a, "Priority", p], '*');
    assert ["\n\n "] + ["Assignee", a, "Priority", p] == ["\n\n ", "Assignee", a, "Priority", p];
  }

  /** The body's pieces joined at the bold markers, as one string. */
  lemma PiecesAreJoin(s: string, a: string, p: string)
    ensures Join(["", s, "\n\n ", "Assignee", a, "Priority", p], '*')
            == "*" + s + "*\n\n *Assignee*" + a + "*Priority*" + p
  {
    var tail := ["\n\n ", "Assignee", a, "Priority", p];
    BodyTailIsJoin(a, p);
    JoinCons(s, tail, '*');
    assert [s] + tail == [s, "\n\n ", "Assignee", a, "Priority", p];
    JoinCons("", [s] + tail, '*');
    assert [""] + ([s] + tail) == ["", s, "\n\n ", "Assignee", a, "Priority", p];
  }

  /** The body written with the spaces around the values moved into them. */
  lemma CardTextLayout(s: string, a: string, p: string)
    ensures "*" + s + "*\n\n *Assignee* " + a + " *Priority* " + p + " "
            == "*" + s + "*\n\n *Assignee*" + (" " + a + " ") + "*Priority*" + (" " + p + " ")
  {
  }

  /** The card body is its pieces joined at the bold markers. */
  lemma CardTextIsJoin(c: CardFields)
    ensures CardText(c) == Join(["", c.summary, "\n\n ", "Assignee", " " + c.assignee + " ",
                                 "Priority", " " + c.priority + " "], '*')
  {
    PiecesAreJoin(c.summary, " " + c.assignee + " ", " " + c.priority + " ");
    CardTextLayout(c.summary, c.assignee, c.priority);
  }

  /** The card for an issue: titled with the key, linked to the issue's page,
      the body showing summary, assignee and priority, coloured by status. */
  function RenderCard(host: string, issue: Issue): (a: Attachment)
    requires Renderable(issue)
    ensures a.title == issue.key
    ensures KeyFromLink(host, a.titleLink) == Some(issue.key)
    ensures a.text == CardText(FieldsOf(issue))
    ensures |a.text| == |FieldsOf(issue).summary| + |FieldsOf(issue).assignee|
                        + |FieldsOf(issue).priority| + 29
    ensures a.color == GetColor(issue.fields.value.status.value.name)
    ensures a.color in {Blue, Green, Yellow}
    ensures a.markdownIn == MarkdownFields
  {
    var link := BrowseLink(host, issue.key);
    assert link[..|host| + |BrowsePath|] == host + BrowsePath;
    Attachment(issue.key, link, CardText(FieldsOf(issue)),
               GetColor(issue.fields.value.status.value.name), MarkdownFields)
  }

  /** The whole post for an issue in a channel: no message text of its own,
      the bot's name and icon, and the issue card as the only attachment. */
  function SendMessage(host: string, issue: Issue, channel: string): (p: Post)
    requires Renderable(issue)
    ensures p.channel == channel && p.text == ""
    ensures p.username == BotName && p.iconUrl == JiraIcon
    ensures p.attachments == [RenderCard(host, issue)]
  {
    Post(channel, "", BotName, JiraIcon, [RenderCard(host, issue)])
  }

  /** When no body value holds a `*`, the body reads back as the values it
      was made from. */
  lemma {:induction false} CardTextRoundTrip(c: CardFields)
    requires '*' !in c.summary && '*' !in c.assignee && '*' !in c.priority
    ensures ParseCardText(CardText(c)) == Some(c)
  {
    var parts := ["", c.summary, "\n\n ", "Assignee", " " + c.assignee + " ",
                  "Priority", " " + c.priority + " "];
    CardTextIsJoin(c);
    assert forall i :: 0 <= i < |parts| ==> '*' !in parts[i];
    SplitJoin(parts, '*');
    assert parts[4][1..|parts[4]| - 1] == c.assignee;
    assert parts[6][1..|parts[6]| - 1] == c.priority;
  }

  /** A rendered card gives back the issue's key from its link and, when the
      shown values hold no `*`, those values from its body. */
  lemma RenderCardRoundTrip(host: string, issue: Issue)
    requires Renderable(issue)
    requires var c := FieldsOf(issue); '*' !in c.summary && '*' !in c.assignee && '*' !in c.priority
    ensures KeyFromLink(host, RenderCard(host, issue).titleLink) == Some(RenderCard(host, issue).title)
    ensures ParseCardText(RenderCard(host, issue).text) == Some(FieldsOf(issue))
  {
    CardTextRoundTrip(FieldsOf(issue));
  }
}

=== FILE: colors.dfy ===
/** The status-to-colour mapping of issue cards. */
module Colors {

  const Yellow: string := "#FFD442"
  const Green: string := "#048A25"
  const Blue: string := "#496686"

  /** Status names shown as work in progress (blue). */
  const InProgress: set<string> := {"Open", "Reopened", "To Do"}

  /** Status names shown as complete (green). */
  const Complete: set<string> := {"Resolved", "Closed", "Done"}

  /** The card colour for a status name: an exact, case-sensitive comparison
      against six names, with yellow for every other name. */
  function GetColor(status: string): (color: string)
    ensures color == Blue <==> status in InProgress
    ensures color == Green <==> status in Complete
    ensures color == Yellow <==> status !in InProgress && status !in Complete
  {
    match status
    case "Open" => Blue
    case "Reopened" => Blue
    case "To Do" => Blue
    case "Resolved" => Green
    case "Closed" => Green
    case "Done" => Green
    case _ => Yellow
  }

  /** Near misses of the recognised names fall through to yellow. */
  lemma NearMissesAreYellow()
    ensures GetColor("done") == Yellow
    ensures GetColor("open") == Yellow
    ensures GetColor("Backlog") == Yellow
    ensures GetColor("In Progress") == Yellow
    ensures GetColor("Done ") == Yellow
    ensures GetColor("") == Yellow
  {
  }
}

=== FILE: events.dfy ===
/** The bot's main loop over the chat service's event stream, taken one
    event after another: user messages are handed to the message processor,
    bot messages and unrelated events are ignored, and an invalid-credentials
    event ends the loop. */
module Events {
  import opened Cards
  import opened Processor

  /** Subtype the chat service gives to messages posted by bots, the bot's
      own cards included. */
  const BotMessage: string := "bot_message"

  datatype Event =
    | MessageEvent(subType: string, text: string, channel: string)
    | InvalidAuthEvent
    | OtherEvent

  /** A unit of work started for one message: its text and channel. */
  datatype Job = Job(text: string, channel: string)

  /** The event starts a message-processing job. */
  predicate Dispatches(e: Event)
  {
    e.MessageEvent? && e.subType != BotMessage
  }

  function JobOf(e: Event): Job
    requires e.MessageEvent?
  {
    Job(e.text, e.channel)
  }

  predicate NoInvalidAuth(events: seq<Event>)
  {
    forall i :: 0 <= i < |events| ==> !events[i].InvalidAuthEvent?
  }

  /** Position of the first invalid-credentials event, or the length of the
      stream when there is none. */
  function FirstInvalid(events: seq<Event>): (n: nat)
    ensures n <= |events|
    ensures NoInvalidAuth(events[..n])
    ensures n < |events| ==> events[n].InvalidAuthEvent?
  {
    if events == [] || events[0].InvalidAuthEvent? then 0
    else
      var n := 1 + FirstInvalid(events[1..]);
      assert forall k :: 1 <= k < n ==> events[k] == events[1..][..n - 1][k - 1];
      n
  }

  /** The jobs started for an event stream, in stream order: one for each
      user message up to the first invalid-credentials event, nothing after. */
  function Dispatched(events: seq<Event>): (jobs: seq<Job>)
    ensures |jobs| <= |events|
  {
    if events == [] then []
    else match events[0]
      case InvalidAuthEvent => []
      case OtherEvent => Dispatched(events[1..])
      case MessageEvent(subType, text, channel) =>
        if subType != BotMessage then [Job(text, channel)] + Dispatched(events[1..])
        else Dispatched(events[1..])
  }

  /** The source's select loop over the events received so far: it starts a
      job for each user message and stops at the first invalid-credentials
      event; `stopped` tells whether it stopped. */
  method EventLoop(events: seq<Event>) returns (jobs: seq<Job>, stopped: bool)
    ensures jobs == Dispatched(events)
    ensures stopped <==> !NoInvalidAuth(events)
  {
    jobs := [];
    stopped := false;
    var i := 0;
    while i < |events|
      invariant 0 <= i <= |events|
      invariant NoInvalidAuth(events[..i])
      invariant jobs + Dispatched(events[i..]) == Dispatched(events)
    {
      var e := events[i];
      assert events[i..][1..] == events[i + 1..];
      assert events[..i + 1] == events[..i] + [e];
      match e {
        case MessageEvent(subType, text, channel) =>
          if subType != BotMessage {
            jobs := jobs + [Job(text, channel)];
          }
        case InvalidAuthEvent =>
          stopped := true;
          break;
        case OtherEvent =>
      }
      i := i + 1;
    }
    if !stopped {
      assert events[..i] == events;
    }
  }

  /** Before any invalid-credentials event, the stream's jobs are the jobs
      of its parts, one after the other. */
  lemma {:induction false} DispatchedAppend(a: seq<Event>, b: seq<Event>)
    requires NoInvalidAuth(a)
    ensures Dispatched(a + b) == Dispatched(a) + Dispatched(b)
    decreases |a|
  {
    if a == [] {
      assert a + b == b;
    } else {
      assert (a + b)[0] == a[0];
      assert (a + b)[1..] == a[1..] + b;
      DispatchedAppend(a[1..], b);
    }
  }

  /** Nothing after the first invalid-credentials event is dispatched,
      whatever it is. */
  lemma StopsAtInvalidAuth(a: seq<Event>, b: seq<Event>)
    requires NoInvalidAuth(a)
    ensures Dispatched(a + [InvalidAuthEvent] + b) == Dispatched(a)
  {
    DispatchedAppend(a, [InvalidAuthEvent] + b);
    assert a + [InvalidAuthEvent] + b == a + ([InvalidAuthEvent] + b);
  }

  /** Bot messages and other events start no job and do not disturb the
      jobs around them. */
  lemma IgnoredEventsSkipped(a: seq<Event>, e: Event, b: seq<Event>)
    requires NoInvalidAuth(a)
    requires !Dispatches(e) && !e.InvalidAuthEvent?
    ensures Dispatched(a + [e] + b) == Dispatched(a + b)
  {
    DispatchedAppend(a, [e] + b);
    DispatchedAppend(a, b);
    assert a + [e] + b == a + ([e] + b);
    assert ([e] + b)[1..] == b;
  }

  /** In a stream without an invalid-credentials event, a job is started
      exactly for the user messages, and for nothing else. */
  lemma {:induction false} DispatchedMembership(events: seq<Event>, j: Job)
    requires NoInvalidAuth(events)
    ensures j in Dispatched(events) <==>
            exists i :: 0 <= i < |events| && Dispatches(events[i]) && JobOf(events[i]) == j
    decreases |events|
  {
    if events != [] {
      var rest := events[1..];
      assert NoInvalidAuth(rest);
      DispatchedMembership(rest, j);
      assert forall i :: 1 <= i < |events| ==> events[i] == rest[i - 1];
      if exists i :: 0 <= i < |events| && Dispatches(events[i]) && JobOf(events[i]) == j {
        var i :| 0 <= i < |events| && Dispatches(events[i]) && JobOf(events[i]) == j;
        if i > 0 {
          assert Dispatches(rest[i - 1]) && JobOf(rest[i - 1]) == j;
        }
      }
      if j in Dispatched(rest) {
        var i :| 0 <= i < |rest| && Dispatches(rest[i]) && JobOf(rest[i]) == j;
        assert events[i + 1] == rest[i];
      }
    }
  }

  /** The search over a text, as submatch lists in match order. */
  type Search = string -> seq<Submatch>

  /** All posts for a list of jobs, job after job. The source runs the jobs
      concurrently, so posts of different jobs may really interleave; this is
      one admissible order. */
  function JobPosts(host: string, lookup: Lookup, findAll: Search, jobs: seq<Job>): (posts: seq<Post>)
    requires SafeTracker(lookup)
    ensures forall p :: p in posts ==> exists k :: 0 <= k < |jobs| && p.channel == jobs[k].channel
  {
    if jobs == [] then []
    else
      var first := MessagePosts(host, jobs[0].channel, lookup, findAll(jobs[0].text));
      assert forall p :: p in first ==> p.channel == jobs[0].channel by {
        forall p | p in first
          ensures p.channel == jobs[0].channel
        {
          MessagePostsMembership(host, jobs[0].channel, lookup, findAll(jobs[0].text), p);
        }
      }
      var rest := JobPosts(host, lookup, findAll, jobs[1..]);
      assert forall p :: p in rest ==> exists k :: 0 <= k < |jobs| && p.channel == jobs[k].channel by {
        forall p | p in rest
          ensures exists k :: 0 <= k < |jobs| && p.channel == jobs[k].channel
        {
          var k :| 0 <= k < |jobs[1..]| && p.channel == jobs[1..][k].channel;
          assert jobs[k + 1] == jobs[1..][k];
        }
      }
      first + rest
  }

  /** A single job posts exactly its message's posts. */
  lemma JobPostsOfOneJob(host: string, lookup: Lookup, findAll: Search, j: Job)
    requires SafeTracker(lookup)
    ensures JobPosts(host, lookup, findAll, [j]) == MessagePosts(host, j.channel, lookup, findAll(j.text))
  {
    assert [j][1..] == [];
    var posts := MessagePosts(host, j.channel, lookup, findAll(j.text));
    assert posts + [] == posts;
  }

  /** The posts of two lists of jobs are the posts of each, one after the
      other: no job's posts are dropped, repeated or merged with another's. */
  lemma {:induction false} JobPostsAppend(host: string, lookup: Lookup, findAll: Search,
                                          a: seq<Job>, b: seq<Job>)
    requires SafeTracker(lookup)
    ensures JobPosts(host, lookup, findAll, a + b)
            == JobPosts(host, lookup, findAll, a) + JobPosts(host, lookup, findAll, b)
    decreases |a|
  {
    if a == [] {
      assert a + b == b;
    } else {
      assert (a + b)[0] == a[0];
      assert (a + b)[1..] == a[1..] + b;
      JobPostsAppend(host, lookup, findAll, a[1..], b);
      var first := MessagePosts(host, a[0].channel, lookup, findAll(a[0].text));
      var rest := JobPosts(host, lookup, findAll, a[1..]);
      var later := JobPosts(host, lookup, findAll, b);
      assert JobPosts(host, lookup, findAll, a) == first + rest;
      assert JobPosts(host, lookup, findAll, a + b) == first + JobPosts(host, lookup, findAll, a[1..] + b);
      AppendAssoc(first, rest, later);
    }
  }

  /** The whole bot over a stream of events: the posts of every job the
      event loop starts. Only the events before the first
      invalid-credentials event matter. */
  function Serve(host: string, lookup: Lookup, findAll: Search, events: seq<Event>): (posts: seq<Post>)
    requires SafeTracker(lookup)
    ensures posts == JobPosts(host, lookup, findAll, Dispatched(events[..FirstInvalid(events)]))
  {
    DispatchedUpToFirstInvalid(events);
    JobPosts(host, lookup, findAll, Dispatched(events))
  }

  /** Only the events before the first invalid-credentials event start
      jobs. */
  lemma DispatchedUpToFirstInvalid(events: seq<Event>)
    ensures Dispatched(events) == Dispatched(events[..FirstInvalid(events)])
  {
    var n := FirstInvalid(events);
    if n == |events| {
      assert events[..n] == events;
    } else {
      assert events == events[..n] + [InvalidAuthEvent] + events[n + 1..];
      StopsAtInvalidAuth(events[..n], events[n + 1..]);
    }
  }

  /** A post is among the posts of a list of jobs exactly when it is among
      the posts of one job's message. */
  lemma {:induction false} JobPostsMembership(host: string, lookup: Lookup, findAll: Search,
                                              jobs: seq<Job>, p: Post)
    requires SafeTracker(lookup)
    ensures p in JobPosts(host, lookup, findAll, jobs) <==>
            exists k :: 0 <= k < |jobs| && p in MessagePosts(host, jobs[k].channel, lookup, findAll(jobs[k].text))
    decreases |jobs|
  {
    if jobs != [] {
      var rest := jobs[1..];
      JobPostsMembership(host, lookup, findAll, rest, p);
      if p in JobPosts(host, lookup, findAll, rest) {
        var k :| 0 <= k < |rest| && p in MessagePosts(host, rest[k].channel, lookup, findAll(rest[k].text));
        assert jobs[k + 1] == rest[k];
      }
      if exists k :: 0 <= k < |jobs| && p in MessagePosts(host, jobs[k].channel, lookup, findAll(jobs[k].text)) {
        var k :| 0 <= k < |jobs| && p in MessagePosts(host, jobs[k].channel, lookup, findAll(jobs[k].text));
        if k > 0 {
          assert rest[k - 1] == jobs[k];
        }
      }
    }
  }

  /** Events after the first invalid-credentials event never lead to a post. */
  lemma ServeStopsAtInvalidAuth(host: string, lookup: Lookup, findAll: Search,
                                a: seq<Event>, b: seq<Event>)
    requires NoInvalidAuth(a)
    requires SafeTracker(lookup)
    ensures Dispatched(a + [InvalidAuthEvent] + b) == Dispatched(a)
    ensures Serve(host, lookup, findAll, a + [InvalidAuthEvent] + b) == Serve(host, lookup, findAll, a)
  {
    StopsAtInvalidAuth(a, b);
  }

  /** A post is among the bot's posts exactly when it is among the posts for
      the text of a user message before the first invalid-credentials event;
      it then goes to that message's channel. */
  lemma ServePostsAnswerUserMessages(host: string, lookup: Lookup, findAll: Search,
                                     events: seq<Event>, p: Post)
    requires SafeTracker(lookup)
    ensures p in Serve(host, lookup, findAll, events) <==>
            exists i :: 0 <= i < FirstInvalid(events) && Dispatches(events[i])
                        && p in MessagePosts(host, events[i].channel, lookup, findAll(events[i].text))
    ensures p in Serve(host, lookup, findAll, events) ==>
            exists i :: 0 <= i < FirstInvalid(events) && Dispatches(events[i]) && events[i].channel == p.channel
  {
    var n := FirstInvalid(events);
    var pre := events[..n];
    var jobs := Dispatched(pre);
    DispatchedUpToFirstInvalid(events);
    JobPostsMembership(host, lookup, findAll, jobs, p);
    if p in Serve(host, lookup, findAll, events) {
      var k :| 0 <= k < |jobs| && p in MessagePosts(host, jobs[k].channel, lookup, findAll(jobs[k].text));
      DispatchedMembership(pre, jobs[k]);
      var i :| 0 <= i < |pre| && Dispatches(pre[i]) && JobOf(pre[i]) == jobs[k];
      assert events[i] == pre[i];
      MessagePostsMembership(host, jobs[k].channel, lookup, findAll(jobs[k].text), p);
      assert events[i].channel == p.channel;
    }
    if exists i :: 0 <= i < n && Dispatches(events[i])
                   && p in MessagePosts(host, events[i].channel, lookup, findAll(events[i].text)) {
      var i :| 0 <= i < n && Dispatches(events[i])
               && p in MessagePosts(host, events[i].channel, lookup, findAll(events[i].text));
      assert pre[i] == events[i];
      DispatchedMembership(pre, JobOf(events[i]));
      var k :| 0 <= k < |jobs| && jobs[k] == JobOf(events[i]);
    }
  }
}

=== FILE: jira.dfy ===
/** The tracker's entities as the bot decodes them from JSON. Every Go
    pointer field becomes an `Option`: `None` is a nil pointer. */
module Jira {
  import opened Wrappers

  /** One entry of the project listing; only `key` is used. */
  datatype Project = Project(id: string, key: string)

  datatype IssueType = IssueType(iconUrl: string, name: string)
  datatype Creator = Creator(displayName: string)
  datatype Assignee = Assignee(displayName: string)
  datatype Priority = Priority(name: string, iconUrl: string)
  datatype Status = Status(name: string, iconUrl: string)

  datatype IssueFields = IssueFields(
    issueType: Option<IssueType>,
    summary: string,
    creator: Option<Creator>,
    assignee: Option<Assignee>,
    priority: Option<Priority>,
    status: Option<Status>)

  /** An issue as decoded; `fields` is nil when the payload has none. */
  datatype Issue = Issue(key: string, fields: Option<IssueFields>)
}

=== FILE: pattern.dfy ===
/** The source text of the issue-reference regular expression, built from
    the project keys fetched at startup. Only the pattern string is modelled,
    not the regular-expression engine that compiles and runs it. */
module PatternBuilder {
  import opened Wrappers
  import opened Jira
  import opened Strings

  /** Text before the keys: a non-word character or the start of the text,
      then the opening of capture group 1 and of the key alternation, which
      is capture group 2. */
  const Prefix: string := @"(?:\W|^)(("

  /** Text after the keys: close the alternation, a hyphen and digits, close
      group 1, an optional `+` in group 3, and a top-level `|$` alternative. */
  const Suffix: string := @")-\d+)(\+)?|$"

  /** Every key followed by a `|`, in order; the last key is followed by a
      `|` too, which leaves an empty last alternative in the group. */
  function KeyAlternation(keys: seq<string>): (s: string)
    ensures |s| == KeysLength(keys)
  {
    if keys == [] then "" else keys[0] + "|" + KeyAlternation(keys[1..])
  }

  /** Sum over the keys of their length plus one for the `|` after each. */
  function KeysLength(keys: seq<string>): nat
  {
    if keys == [] then 0 else |keys[0]| + 1 + KeysLength(keys[1..])
  }

  /** The project keys, in the order the tracker listed the projects. */
  function ProjectKeys(projects: seq<Project>): seq<string>
  {
    seq(|projects|, i requires 0 <= i < |projects| => projects[i].key)
  }

  /** The pattern string for a key list, declaratively. */
  function PatternFor(keys: seq<string>): string
  {
    Prefix + KeyAlternation(keys) + Suffix
  }

  /** Appending one key appends that key and a `|` to the alternation. */
  lemma {:induction false} KeyAlternationSnoc(keys: seq<string>, k: string)
    ensures KeyAlternation(keys + [k]) == KeyAlternation(keys) + k + "|"
    decreases |keys|
  {
    if keys == [] {
      assert [] + [k] == [k];
      assert [k][1..] == [];
    } else {
      assert (keys + [k])[1..] == keys[1..] + [k];
      KeyAlternationSnoc(keys[1..], k);
    }
  }

  /** The startup pattern construction, appending key after key as the
      source does; its result is the declarative pattern for the keys of
      the listed projects. */
  method BuildPattern(projects: seq<Project>) returns (pattern: string)
    ensures pattern == PatternFor(ProjectKeys(projects))
    ensures |pattern| == |Prefix| + KeysLength(ProjectKeys(projects)) + |Suffix|
  {
    ghost var keys := ProjectKeys(projects);
    pattern := Prefix;
    var i := 0;
    while i < |projects|
      invariant 0 <= i <= |projects|
      invariant pattern == Prefix + KeyAlternation(keys[..i])
    {
      KeyAlternationSnoc(keys[..i], projects[i].key);
      assert keys[..i + 1] == keys[..i] + [projects[i].key];
      pattern := pattern + projects[i].key;
      pattern := pattern + "|";
      i := i + 1;
    }
    assert keys[..i] == keys;
    pattern := pattern + Suffix;
  }

  /** The pattern is ten characters, then every key with its `|`, then
      thirteen characters. */
  lemma PatternLength(keys: seq<string>)
    ensures |PatternFor(keys)| == 10 + KeysLength(keys) + 13
  {
  }

  /** With no projects the group is empty: `(?:\W|^)(()-\d+)(\+)?|$`. */
  lemma EmptyKeysPattern()
    ensures PatternFor([]) == @"(?:\W|^)(()-\d+)(\+)?|$"
  {
  }

  /** The alternatives of the key group of a pattern string, when it has the
      shape the builder produces; the group's text is split at `|`. */
  function GroupAlternatives(pattern: string): Option<seq<string>>
  {
    if |pattern| >= |Prefix| + |Suffix|
       && pattern[..|Prefix|] == Prefix
       && pattern[|pattern| - |Suffix|..] == Suffix
    then Some(Split(pattern[|Prefix|..|pattern| - |Suffix|], '|'))
    else None
  }

  /** The alternation is the keys and one empty string, joined with `|`. */
  lemma {:induction false} KeyAlternationIsJoin(keys: seq<string>)
    ensures KeyAlternation(keys) == Join(keys + [""], '|')
    decreases |keys|
  {
    if keys != [] {
      KeyAlternationIsJoin(keys[1..]);
      assert (keys + [""])[1..] == keys[1..] + [""];
    }
  }

  /** For keys free of `|`, the group's alternatives are exactly the keys in
      order followed by one empty alternative: the keys can be read back
      from the pattern, and the group also accepts an empty key. */
  lemma GroupAlternativesOfPattern(keys: seq<string>)
    requires forall i :: 0 <= i < |keys| ==> '|' !in keys[i]
    ensures GroupAlternatives(PatternFor(keys)) == Some(keys + [""])
  {
    var p := PatternFor(keys);
    assert p[..|Prefix|] == Prefix;
    assert p[|p| - |Suffix|..] == Suffix;
    assert p[|Prefix|..|p| - |Suffix|] == KeyAlternation(keys);
    KeyAlternationIsJoin(keys);
    SplitJoin(keys + [""], '|');
  }

  /** Keys are pasted in unescaped: a key holding `|` is read back as two
      alternatives, so the pattern no longer says which keys it was made of. */
  lemma UnescapedKeyChangesAlternatives()
    ensures GroupAlternatives(PatternFor(["A|B"])) == Some(["A", "B", ""])
  {
    var p := PatternFor(["A|B"]);
    assert p[..|Prefix|] == Prefix;
    assert p[|p| - |Suffix|..] == Suffix;
    assert p[|Prefix|..|p| - |Suffix|] == "A|B|";
    assert "A|B|" == "A" + ['|'] + ("B" + ['|'] + "");
    SplitCons("A", "B" + ['|'] + "", '|');
    SplitCons("B", "", '|');
    assert Split("", '|') == [""];
    assert Split("A|B|", '|') == ["A"] + (["B"] + [""]);
    assert ["A"] + (["B"] + [""]) == ["A", "B", ""];
    assert GroupAlternatives(p) == Some(Split("A|B|", '|'));
  }
}

=== FILE: processor.dfy ===
/** Handling of one chat message: every reference the pattern found is
    looked up on its own and, when the lookup succeeds, posted as a card to
    the message's channel. The regular-expression search and the tracker
    request are parameters: the submatch lists of the search, and a function
    from issue key to the tracker's reply. */
module Processor {
  import opened Strings
  import opened Resolver
  import opened Cards

  /** The tracker's reply to a request for `key`. */
  type Lookup = string -> Reply

  /** One match of the search. The pattern has three capture groups, so every
      submatch list has four entries: the whole matched text, group 1 (the
      `KEY-NUMBER` reference), group 2 (the project key inside it) and
      group 3 (an optional `+`). */
  datatype Submatch = Submatch(whole: string, reference: string, projectKey: string, plus: string)

  /** The key looked up for a match: group 1 with white space trimmed. */
  function IssueKey(m: Submatch): string
  {
    TrimSpace(m.reference)
  }

  /** A reply the source can handle without a nil dereference: when it is
      accepted, its issue has fields, a priority and a status. */
  predicate SafeReply(reply: Reply)
  {
    Accepted(reply) ==> && reply.decoded.value.fields.Some?
                        && reply.decoded.value.fields.value.priority.Some?
                        && reply.decoded.value.fields.value.status.Some?
  }

  /** A successful lookup of a safe reply yields an issue a card can be
      rendered from. */
  lemma SafeReplyRenders(reply: Reply)
    requires SafeReply(reply)
    ensures DereferenceSafe(reply)
    ensures GetIssue(reply).Success? ==> Renderable(GetIssue(reply).value)
  {
  }

  /** The tracker never sends an accepted issue the source would crash on. */
  ghost predicate SafeTracker(lookup: Lookup)
  {
    forall key :: SafeReply(lookup(key))
  }

  /** Whether looking up the key of submatch list `m` succeeds. */
  predicate Resolves(lookup: Lookup, m: Submatch)
    requires SafeTracker(lookup)
  {
    GetIssue(lookup(IssueKey(m))).Success?
  }

  /** What looking up one key contributes: the issue's post to the channel
      when the lookup succeeds, nothing when it fails. */
  function PostsForKey(host: string, channel: string, lookup: Lookup, key: string): (posts: seq<Post>)
    requires SafeTracker(lookup)
    ensures GetIssue(lookup(key)).Failure? ==> posts == []
    ensures GetIssue(lookup(key)).Success? ==>
              |posts| == 1 && posts[0].channel == channel && posts[0].username == BotName
              && posts[0].attachments == [RenderCard(host, GetIssue(lookup(key)).value)]
  {
    var reply := lookup(key);
    SafeReplyRenders(reply);
    match GetIssue(reply)
    case Success(issue) => [SendMessage(host, issue, channel)]
    case Failure(_) => []
  }

  /** What one submatch list contributes: the post of its key's issue when
      the lookup succeeds, nothing when it fails. */
  function PostsForMatch(host: string, channel: string, lookup: Lookup, m: Submatch): (posts: seq<Post>)
    requires SafeTracker(lookup)
    ensures |posts| == (if Resolves(lookup, m) then 1 else 0)
    ensures Resolves(lookup, m) ==> posts == [PostOf(host, channel, lookup, m)]
  {
    PostsForKey(host, channel, lookup, IssueKey(m))
  }

  /** Number of submatch lists whose lookup succeeds. */
  function CountResolved(lookup: Lookup, matches: seq<Submatch>): nat
    requires SafeTracker(lookup)
  {
    if matches == [] then 0
    else (if Resolves(lookup, matches[0]) then 1 else 0) + CountResolved(lookup, matches[1..])
  }

  /** The posts for a whole message, in submatch order: one per successful
      lookup, none for a failed one, every post to the message's channel. */
  function MessagePosts(host: string, channel: string, lookup: Lookup, matches: seq<Submatch>): (posts: seq<Post>)
    requires SafeTracker(lookup)
    ensures |posts| == CountResolved(lookup, matches)
    ensures |posts| <= |matches|
  {
    if matches == [] then []
    else PostsForMatch(host, channel, lookup, matches[0]) + MessagePosts(host, channel, lookup, matches[1..])
  }

  /** The source's loop over the submatch lists, looking each key up in turn;
      it posts exactly the message's posts. */
  method ProcessEvents(host: string, channel: string, lookup: Lookup, matches: seq<Submatch>)
    returns (posts: seq<Post>)
    requires SafeTracker(lookup)
    ensures posts == MessagePosts(host, channel, lookup, matches)
  {
    posts := [];
    var i := 0;
    while i < |matches|
      invariant 0 <= i <= |matches|
      invariant posts + MessagePosts(host, channel, lookup, matches[i..])
                == MessagePosts(host, channel, lookup, matches)
    {
      var next := PostsForMatch(host, channel, lookup, matches[i]);
      ghost var later := MessagePosts(host, channel, lookup, matches[i + 1..]);
      assert matches[i..][1..] == matches[i + 1..];
      assert MessagePosts(host, channel, lookup, matches[i..]) == next + later;
      AppendAssoc(posts, next, later);
      posts := posts + next;
      i := i + 1;
    }
    assert posts + [] == posts;
  }

  lemma AppendAssoc<T>(x: seq<T>, y: seq<T>, z: seq<T>)
    ensures x + (y + z) == (x + y) + z
  {
  }

  /** Splitting the submatch lists splits the posts the same way: what one
      reference yields does not depend on the others. */
  lemma {:induction false} MessagePostsAppend(host: string, channel: string, lookup: Lookup,
                                              a: seq<Submatch>, b: seq<Submatch>)
    requires SafeTracker(lookup)
    ensures MessagePosts(host, channel, lookup, a + b)
            == MessagePosts(host, channel, lookup, a) + MessagePosts(host, channel, lookup, b)
    decreases |a|
  {
    if a != [] {
      assert (a + b)[0] == a[0];
      assert (a + b)[1..] == a[1..] + b;
      MessagePostsAppend(host, channel, lookup, a[1..], b);
      var x := PostsForMatch(host, channel, lookup, a[0]);
      var rest := MessagePosts(host, channel, lookup, a[1..]);
      var posts := MessagePosts(host, channel, lookup, b);
      assert MessagePosts(host, channel, lookup, a) == x + rest;
      assert MessagePosts(host, channel, lookup, a + b) == x + MessagePosts(host, channel, lookup, a[1..] + b);
      AppendAssoc(x, rest, posts);
    } else {
      assert a + b == b;
    }
  }

  /** A reference whose lookup fails contributes nothing, and the references
      after it are still processed. */
  lemma FailedLookupSkipped(host: string, channel: string, lookup: Lookup,
                            a: seq<Submatch>, m: Submatch, b: seq<Submatch>)
    requires SafeTracker(lookup)
    requires !Resolves(lookup, m)
    ensures MessagePosts(host, channel, lookup, a + [m] + b)
            == MessagePosts(host, channel, lookup, a) + MessagePosts(host, channel, lookup, b)
  {
    MessagePostsAppend(host, channel, lookup, [m], b);
    assert MessagePosts(host, channel, lookup, [m]) == [];
    assert MessagePosts(host, channel, lookup, [m] + b) == MessagePosts(host, channel, lookup, b);
    MessagePostsAppend(host, channel, lookup, a, [m] + b);
    AppendAssoc(a, [m], b);
  }

  /** Repeated mentions are not merged: the same reference twice is looked up
      twice and, on success, posted twice. */
  lemma DuplicatesPostedTwice(host: string, channel: string, lookup: Lookup, m: Submatch)
    requires SafeTracker(lookup) && Resolves(lookup, m)
    ensures var posts := MessagePosts(host, channel, lookup, [m, m]);
            |posts| == 2 && posts[0] == posts[1]
  {
    assert [m, m][1..] == [m];
  }

  /** The post for a match whose lookup succeeds: sent to the message's
      channel as the bot, with the card of the issue found for the match's
      key. */
  function PostOf(host: string, channel: string, lookup: Lookup, m: Submatch): (p: Post)
    requires SafeTracker(lookup) && Resolves(lookup, m)
    ensures p.channel == channel && p.username == BotName
    ensures p.attachments == [RenderCard(host, GetIssue(lookup(TrimSpace(m.reference))).value)]
  {
    SafeReplyRenders(lookup(IssueKey(m)));
    SendMessage(host, GetIssue(lookup(IssueKey(m))).value, channel)
  }

  /** A match yields its post when its lookup succeeds, and nothing else. */
  lemma PostsForMatchMembership(host: string, channel: string, lookup: Lookup, m: Submatch, p: Post)
    requires SafeTracker(lookup)
    ensures p in PostsForMatch(host, channel, lookup, m) <==>
            Resolves(lookup, m) && p == PostOf(host, channel, lookup, m)
  {
  }

  /** Every post of a message is the post of one of its resolving matches. */
  lemma {:induction false} MessagePostsSound(host: string, channel: string, lookup: Lookup,
                                             matches: seq<Submatch>, p: Post)
    requires SafeTracker(lookup)
    requires p in MessagePosts(host, channel, lookup, matches)
    ensures exists i :: 0 <= i < |matches| && Resolves(lookup, matches[i])
                        && p == PostOf(host, channel, lookup, matches[i])
    decreases |matches|
  {
    var rest := matches[1..];
    var first := PostsForMatch(host, channel, lookup, matches[0]);
    PostsForMatchMembership(host, channel, lookup, matches[0], p);
    if p !in first {
      assert p in MessagePosts(host, channel, lookup, rest);
      MessagePostsSound(host, channel, lookup, rest, p);
      var i :| 0 <= i < |rest| && Resolves(lookup, rest[i]) && p == PostOf(host, channel, lookup, rest[i]);
      assert matches[i + 1] == rest[i];
    }
  }

  /** The post of every resolving match is among the message's posts. */
  lemma {:induction false} MessagePostsComplete(host: string, channel: string, lookup: Lookup,
                                                matches: seq<Submatch>, i: nat)
    requires SafeTracker(lookup)
    requires i < |matches| && Resolves(lookup, matches[i])
    ensures PostOf(host, channel, lookup, matches[i]) in MessagePosts(host, channel, lookup, matches)
    decreases i
  {
    var p := PostOf(host, channel, lookup, matches[i]);
    var rest := matches[1..];
    if i == 0 {
      PostsForMatchMembership(host, channel, lookup, matches[0], p);
    } else {
      assert rest[i - 1] == matches[i];
      MessagePostsComplete(host, channel, lookup, rest, i - 1);
    }
  }

  /** A post belongs to a message's output exactly when some reference of the
      message resolves to an issue whose card it is. */
  lemma {:induction false} MessagePostsMembership(host: string, channel: string, lookup: Lookup,
                                                  matches: seq<Submatch>, p: Post)
    requires SafeTracker(lookup)
    ensures p in MessagePosts(host, channel, lookup, matches) <==>
            exists i :: 0 <= i < |matches| && Resolves(lookup, matches[i])
                        && p == PostOf(host, channel, lookup, matches[i])
  {
    if p in MessagePosts(host, channel, lookup, matches) {
      MessagePostsSound(host, channel, lookup, matches, p);
    }
    if exists i :: 0 <= i < |matches| && Resolves(lookup, matches[i])
                   && p == PostOf(host, channel, lookup, matches[i]) {
      var i :| 0 <= i < |matches| && Resolves(lookup, matches[i])
               && p == PostOf(host, channel, lookup, matches[i]);
      MessagePostsComplete(host, channel, lookup, matches, i);
    }
  }

  /** The keys looked up for a message, one per submatch list, in order. */
  function KeysLookedUp(matches: seq<Submatch>): (keys: seq<string>)
    ensures |keys| == |matches|
  {
    seq(|matches|, i requires 0 <= i < |matches| => IssueKey(matches[i]))
  }

  /** Each key looked up is the reference of its submatch list with the
      surrounding white space removed. */
  lemma KeysAreTrimmedReferences(matches: seq<Submatch>)
    ensures forall i :: 0 <= i < |matches| ==> IsTrimOf(matches[i].reference, KeysLookedUp(matches)[i])
  {
    forall i | 0 <= i < |matches|
      ensures IsTrimOf(matches[i].reference, KeysLookedUp(matches)[i])
    {
      TrimSpaceSpec(matches[i].reference);
    }
  }

  /** The posts for a list of keys: each key looked up in turn. */
  function PostsForKeys(host: string, channel: string, lookup: Lookup, keys: seq<string>): (posts: seq<Post>)
    requires SafeTracker(lookup)
    ensures |posts| <= |keys|
  {
    if keys == [] then []
    else PostsForKey(host, channel, lookup, keys[0]) + PostsForKeys(host, channel, lookup, keys[1..])
  }

  /** A message's posts are exactly what looking up its keys, in submatch
      order, yields: nothing but the trimmed references reaches the
      tracker. */
  lemma {:induction false} MessagePostsByKeys(host: string, channel: string, lookup: Lookup,
                                              matches: seq<Submatch>)
    requires SafeTracker(lookup)
    ensures MessagePosts(host, channel, lookup, matches)
            == PostsForKeys(host, channel, lookup, KeysLookedUp(matches))
    decreases |matches|
  {
    if matches != [] {
      var keys := KeysLookedUp(matches);
      assert keys[0] == IssueKey(matches[0]);
      assert keys[1..] == KeysLookedUp(matches[1..]);
      MessagePostsByKeys(host, channel, lookup, matches[1..]);
    }
  }
}

=== FILE: resolver.dfy ===
/** The part of the issue lookup that runs after the HTTP exchange:
    classifying the tracker's reply and normalising the decoded issue. */
module Resolver {
  import opened Wrappers
  import opened Jira

  const StatusOK: int := 200

  /** Display name given to an issue that nobody is assigned to. */
  const Unassigned: string := "Unassigned"

  /** What the HTTP exchange for one issue key produced: either the request
      could not be sent or completed, or a status code together with the body
      decoded as an issue (`None` when the body is not a valid issue). */
  datatype Reply =
    | TransportFailure
    | Response(statusCode: int, decoded: Option<Issue>)

  /** Why a lookup yields no issue. */
  datatype ResolveError =
    | Transport
    | BadStatus(code: int)
    | Undecodable
    | NoIssueFound

  /** The reply carries an issue the lookup accepts: status 200, a decodable
      body and a non-empty key. */
  predicate Accepted(reply: Reply)
  {
    reply.Response? && reply.statusCode == StatusOK
    && reply.decoded.Some? && reply.decoded.value.key != ""
  }

  /** The source dereferences the fields of an accepted issue without a nil
      check; a reply whose accepted issue has no fields would crash it. */
  predicate DereferenceSafe(reply: Reply)
  {
    Accepted(reply) ==> reply.decoded.value.fields.Some?
  }

  /** An issue whose fields are present and carry an assignee. */
  predicate Normalized(issue: Issue)
  {
    issue.fields.Some? && issue.fields.value.assignee.Some?
  }

  /** Gives an issue without an assignee the placeholder assignee. */
  function Normalize(issue: Issue): (r: Issue)
    requires issue.fields.Some?
    ensures Normalized(r)
    ensures r.key == issue.key
    ensures r.fields.value == issue.fields.value.(assignee := r.fields.value.assignee)
    ensures issue.fields.value.assignee.Some? ==> r == issue
    ensures issue.fields.value.assignee.None? ==>
              r.fields.value.assignee == Some(Assignee(Unassigned))
  {
    var f := issue.fields.value;
    if f.assignee.None? then issue.(fields := Some(f.(assignee := Some(Assignee(Unassigned)))))
    else issue
  }

  /** The outcome of looking up an issue, given the reply to the request:
      an error for a transport failure, a status other than 200, an
      undecodable body or an empty key; otherwise the decoded issue with the
      placeholder assignee filled in when it had none. */
  function GetIssue(reply: Reply): (r: Result<Issue, ResolveError>)
    requires DereferenceSafe(reply)
    ensures r.Success? <==> Accepted(reply)
    ensures reply.TransportFailure? ==> r == Failure(Transport)
    ensures reply.Response? && reply.statusCode != StatusOK ==>
              r == Failure(BadStatus(reply.statusCode))
    ensures reply.Response? && reply.statusCode == StatusOK && reply.decoded.None? ==>
              r == Failure(Undecodable)
    ensures (reply.Response? && reply.statusCode == StatusOK && reply.decoded.Some?
             && reply.decoded.value.key == "") ==> r == Failure(NoIssueFound)
    ensures r.Success? ==> Normalized(r.value) && r.value == Normalize(reply.decoded.value)
  {
    match reply
    case TransportFailure => Failure(Transport)
    case Response(code, decoded) =>
      if code != StatusOK then Failure(BadStatus(code))
      else if decoded.None? then Failure(Undecodable)
      else if decoded.value.key == "" then Failure(NoIssueFound)
      else Success(Normalize(decoded.value))
  }

  /** Normalising is idempotent: an issue that already went through the
      lookup is not changed by a second pass. */
  lemma NormalizeIdempotent(issue: Issue)
    requires issue.fields.Some?
    ensures Normalize(Normalize(issue)) == Normalize(issue)
  {
  }

  /** Normalisation touches nothing but the assignee: key, summary, issue
      type, creator, priority and status come through unchanged. */
  lemma GetIssuePreservesFields(reply: Reply)
    requires DereferenceSafe(reply) && Accepted(reply)
    ensures var i := GetIssue(reply).value; var d := reply.decoded.value;
            && i.key == d.key
            && i.fields.value.summary == d.fields.value.summary
            && i.fields.value.issueType == d.fields.value.issueType
            && i.fields.value.creator == d.fields.value.creator
            && i.fields.value.priority == d.fields.value.priority
            && i.fields.value.status == d.fields.value.status
  {
  }
}

=== FILE: strings.dfy ===
/** String helpers the core relies on: splitting at a separator character
    (and its inverse, joining), and Go's `strings.TrimSpace`. */
module Strings {

  /** The parts glued back together with `sep` between consecutive parts. */
  function Join(parts: seq<string>, sep: char): string
    requires |parts| >= 1
  {
    if |parts| == 1 then parts[0] else parts[0] + [sep] + Join(parts[1..], sep)
  }

  /** Joining a part in front of at least one more part. */
  lemma JoinCons(x: string, rest: seq<string>, sep: char)
    requires |rest| >= 1
    ensures Join([x] + rest, sep) == x + [sep] + Join(rest, sep)
  {
    assert ([x] + rest)[1..] == rest;
  }

  /** Splits `s` at every occurrence of `sep`; n separators give n + 1 parts,
      some of them possibly empty. */
  function Split(s: string, sep: char): (parts: seq<string>)
    ensures |parts| >= 1
    ensures forall i :: 0 <= i < |parts| ==> sep !in parts[i]
    ensures Join(parts, sep) == s
    decreases |s|
  {
    if |s| == 0 then [""]
    else if s[0] == sep then [""] + Split(s[1..], sep)
    else
      var rest := Split(s[1..], sep);
      assert s == [s[0]] + s[1..];
      [[s[0]] + rest[0]] + rest[1..]
  }

  /** A separator-free string is a single part. */
  lemma {:induction false} SplitWithoutSep(k: string, sep: char)
    requires sep !in k
    ensures Split(k, sep) == [k]
    decreases |k|
  {
    if |k| > 0 {
      assert sep !in k[1..];
      SplitWithoutSep(k[1..], sep);
    }
  }

  /** A separator-free head is split off as the first part. */
  lemma {:induction false} SplitCons(k: string, t: string, sep: char)
    requires sep !in k
    ensures Split(k + [sep] + t, sep) == [k] + Split(t, sep)
    decreases |k|
  {
    if |k| == 0 {
      assert k + [sep] + t == [sep] + t;
      assert ([sep] + t)[1..] == t;
    } else {
      assert (k + [sep] + t)[1..] == k[1..] + [sep] + t;
      assert sep !in k[1..];
      SplitCons(k[1..], t, sep);
      assert [k[0]] + k[1..] == k;
    }
  }

  /** Split undoes Join whenever no part contains the separator: together
      with Split's own contract, Split and Join are mutually inverse. */
  lemma {:induction false} SplitJoin(parts: seq<string>, sep: char)
    requires |parts| >= 1
    requires forall i :: 0 <= i < |parts| ==> sep !in parts[i]
    ensures Split(Join(parts, sep), sep) == parts
    decreases |parts|
  {
    if |parts| == 1 {
      SplitWithoutSep(parts[0], sep);
    } else {
      SplitJoin(parts[1..], sep);
      SplitCons(parts[0], Join(parts[1..], sep), sep);
      assert [parts[0]] + parts[1..] == parts;
    }
  }

  /** Go's `unicode.IsSpace`: the ASCII white space characters, NEL, NBSP and
      the remaining Unicode White_Space code points. */
  predicate IsSpace(c: char)
  {
    || c == '\t' || c == '\n' || c == '\U{0B}' || c == '\U{0C}' || c == '\r' || c == ' '
    || c == '\U{85}' || c == '\U{A0}' || c == '\U{1680}'
    || ('\U{2000}' <= c <= '\U{200A}')
    || c == '\U{2028}' || c == '\U{2029}' || c == '\U{202F}' || c == '\U{205F}' || c == '\U{3000}'
  }

  predicate AllSpace(s: string)
  {
    forall k :: 0 <= k < |s| ==> IsSpace(s[k])
  }

  /** Number of white space characters at the front of `s`. */
  function LeadingSpaces(s: string): (n: nat)
    ensures n <= |s|
    ensures AllSpace(s[..n])
    ensures n < |s| ==> !IsSpace(s[n])
    decreases |s|
  {
    if |s| == 0 || !IsSpace(s[0]) then 0
    else
      var n := 1 + LeadingSpaces(s[1..]);
      assert forall k :: 1 <= k < n ==> s[k] == s[1..][k - 1];
      n
  }

  /** Number of white space characters at the back of `s`. */
  function TrailingSpaces(s: string): (n: nat)
    ensures n <= |s|
    ensures AllSpace(s[|s| - n..])
    ensures n < |s| ==> !IsSpace(s[|s| - n - 1])
    decreases |s|
  {
    if |s| == 0 || !IsSpace(s[|s| - 1]) then 0
    else
      var init := s[..|s| - 1];
      var n := 1 + TrailingSpaces(init);
      assert forall k :: |s| - n <= k < |s| - 1 ==> s[k] == init[k];
      n
  }

  /** Go's `strings.TrimSpace`: `s` with leading and trailing white space
      removed. */
  function TrimSpace(s: string): string
  {
    var t := s[LeadingSpaces(s)..];
    t[..|t| - TrailingSpaces(t)]
  }

  /** `r` is `s` with its surrounding white space removed: a contiguous slice
      of `s`, everything cut off on either side is white space, and `r`
      neither starts nor ends with white space. */
  predicate IsTrimOf(s: string, r: string)
  {
    && (exists i :: 0 <= i <= |s| - |r| && s[i..i + |r|] == r
                    && AllSpace(s[..i]) && AllSpace(s[i + |r|..]))
    && (|r| > 0 ==> !IsSpace(r[0]) && !IsSpace(r[|r| - 1]))
  }

  /** `TrimSpace` removes exactly the surrounding white space. */
  lemma TrimSpaceSpec(s: string)
    ensures IsTrimOf(s, TrimSpace(s))
  {
    var i := LeadingSpaces(s);
    var t := s[i..];
    var j := |t| - TrailingSpaces(t);
    var r := t[..j];
    assert s[i..i + |r|] == r;
    assert s[i + |r|..] == t[j..];
    assert |r| > 0 ==> r[0] == s[i];
  }

  /** Trimming twice trims nothing more. */
  lemma TrimSpaceIdempotent(s: string)
    ensures TrimSpace(TrimSpace(s)) == TrimSpace(s)
  {
    var r := TrimSpace(s);
    TrimSpaceSpec(s);
    assert LeadingSpaces(r) == 0;
    assert TrailingSpaces(r) == 0;
    assert r[0..][..|r|] == r;
  }
}

=== FILE: wrappers.dfy ===
/** Failure-carrying datatypes standing in for Go's nil pointers and
    `(value, error)` return pairs. */
module Wrappers {

  /** A value that may be absent: a Go pointer field that may be nil. */
  datatype Option<+T> = None | Some(value: T)

  /** The outcome of a Go call returning `(value, error)`: on `Failure` the
      value the Go code returns alongside the error is never looked at. */
  datatype Result<+R, +E> = Success(value: R) | Failure(error: E)
}
